=== FILE: README.md ===
# Movie recommender core, modelled in Dafny

The program is a small terminal movie recommender (`terminal.py`). It reads a
table of `(User, Movie, Rating)` rows and cleans the free-text ratings. A rating
that is not a number word and has no digit and no dot cleans to `None` and is
filled in with the mean rating. The user supplies some
ratings. These are upserted into the table: a new user gets a fresh numeric id,
and a returning user's old rows are replaced. A latent-factor model is then
trained on the updated table. Every movie of the original table that the user
did not just rate is scored, and the best-scoring one is recommended.

The model has five modules, one per piece of that logic:

- `Common` (`common.dfy`): an `Option` type and Python's view of ASCII digit
  strings. This covers `str.isdigit`, `int(s)` and `str(n)`.
- `Cleaning` (`cleaning.dfy`): `clean_rating`. Its result is a datatype:
  `Word(n)` for a number word, `Numeric(v)` for `float(...)`, `NotARating` for
  `None`, and `ParseError` for the `ValueError` that `float` raises.
- `Imputation` (`imputation.dfy`): the corpus preparation in `main`. The whole
  column is cleaned. The mean of the present ratings is taken once. Then
  `fillna(..., inplace=True)` overwrites the gaps in an array.
- `Upsert` (`upsert.dfy`): `update_user_ratings`, as a pure function on a
  sequence of rows. It returns a new table and never changes its input.
- `Recommend` (`recommend.dfy`): `recommend_movie`, as a method. A loop builds
  the predictions list. The list is then stably sorted by descending score, and
  its head is returned. The trained model is a parameter: `fit` maps a table to
  a prediction function `(user, movie) -> real`.

## Model

| member | source | states |
|---|---|---|
| `Common.NatToString` | terminal.py:45 | `str(n)` is a non-empty run of digits with no leading zero |
| `Common.NatToStringRoundTrip` | terminal.py:28-45 | `int(str(n)) == n`, so the id returned as a string has the numeric value that was computed |
| `Common.DigitsValue` | terminal.py:28 | `int(uid)` of an id that passes `uid.isdigit()` (`Common.IsDigitString`), read left to right; the value is below 10 to the number of digits |
| `Common.DigitsValueAppend` | terminal.py:21 | reading digits left to right: `value(a + b) == value(a) * 10^|b| + value(b)` |
| `Cleaning.LowerChar` | terminal.py:13 | `lower()` on one character: a capital ASCII letter becomes the small letter at the same place in the alphabet; any other character is kept |
| `Cleaning.LowerCase` | terminal.py:13 | `rating.lower()` keeps the length, leaves no capital ASCII letter and keeps every other character |
| `Cleaning.KeepNumeric` | terminal.py:18 | the stripped rating holds only digits and dots and is no longer than the input; a rating made only of digits and dots is kept as it is, so with `KeepNumericAppend` and `KeepNumericEmptyIff` the result is exactly the input's own digits and dots, in order |
| `Cleaning.KeepNumericAppend` | terminal.py:18 | stripping distributes over concatenation, so it works character by character |
| `Cleaning.KeepNumericEmptyIff` | terminal.py:18-21 | nothing is left after stripping exactly when the input has no digit and no dot |
| `Cleaning.KeepNumericIgnoresCase` | terminal.py:13-18 | lower-casing neither creates nor changes digits or dots |
| `Cleaning.ParseFloat` | terminal.py:21 | on a string of digits and dots, `float` succeeds exactly when there is at most one dot and at least one digit; the value is never negative |
| `Cleaning.FloatValueIsScaledDigits` | terminal.py:21 | the parsed value equals all the digits read as one integer, divided by 10 to the number of digits after the dot |
| `Cleaning.CleanRating` | terminal.py:5-21 | a number word in any letter case gives `Word(1..5)` and nothing else does; `NotARating` exactly when the input is not a number word and has no digit or dot; `ParseError` exactly when the stripped remainder is non-empty and not a float literal; a numeric result is `float` of the stripped remainder (whose value `Cleaning.FloatValueIsScaledDigits` gives) and is never negative |
| `Cleaning.StrayCharacterIgnored` | terminal.py:17-21 | inserting a character that is neither a digit nor a dot into a non-word rating does not change the result |
| `Cleaning.OnlyDigitsAndDotsMatter` | terminal.py:17-21 | two non-word ratings with the same digits and dots in the same order clean to the same result |
| `Cleaning.WordExamples` | terminal.py:7-15 | "three", "THREE" and "Five" give 3, 3 and 5 |
| `Cleaning.StrippedExample` | terminal.py:18-21 | "4 stars" gives 4.0 |
| `Cleaning.ScaleDigitKeptExample` | terminal.py:18-21 | "2.5/5" gives 2.55, because the digit of the scale is kept |
| `Cleaning.NotARatingExamples` | terminal.py:18-21 | "" and "abc" give `None` |
| `Cleaning.ParseErrorExamples` | terminal.py:18-21 | "1.2.3" and "." make `float` raise |
| `Imputation.CleanColumn` | terminal.py:77 | the cleaned column has one entry per row, equal to that row's cleaned value; it fails exactly when some row makes `float` raise |
| `Imputation.Mean` | terminal.py:79 | the mean of the present ratings is missing exactly when every rating is missing |
| `Imputation.MeanWithinBounds` | terminal.py:79 | if all present ratings lie in `[lo, hi]` and one is present, the mean lies in `[lo, hi]` |
| `Imputation.FilledKeepsPresent` | terminal.py:80 | `fillna(m)` keeps every present rating and puts `m` in every gap; with a present `m` no gap is left |
| `Imputation.FillMissing` | terminal.py:80 | the array afterwards equals the old column with every gap replaced by the mean |
| `Imputation.PrepareRatings` | terminal.py:77-80 | the row count is kept; a row cleaned to a number keeps it; a row cleaned to `None` gets the mean of the cleaned column; once any row is a number no row is missing; failure exactly when some row makes `float` raise |
| `Imputation.ImputationKeepsMean` | terminal.py:79-80 | filling the gaps with the mean leaves the mean of the column unchanged |
| `Upsert.NextUserId` | terminal.py:26-29 | the new id exceeds the value of every all-digit user id; it is 1 + the largest of them when one exists, and 1 otherwise |
| `Upsert.WithoutUser` | terminal.py:32 | the filtered table has no row of the given user and is no longer than before |
| `Upsert.NewRowsContent` | terminal.py:35-39 | the frame of supplied ratings has one row per item: the user's id, the movie and the rating, in dict order |
| `Upsert.UpsertUser` | terminal.py:25-45 | an explicit id is returned unchanged; a generated id is all digits and is no user id of the table; the new table is the other users' rows followed by the supplied ratings |
| `Upsert.FreshIdUnused` | terminal.py:26-29 | the generated id differs from every user id of the table, numeric or not |
| `Upsert.UpsertReplacesUserRows` | terminal.py:31-42 | afterwards the user's rows are exactly the supplied (movie, rating) pairs, in dict order; no earlier row of theirs survives |
| `Upsert.UpsertKeepsOtherUsers` | terminal.py:32-42 | every other user keeps exactly their rows in order, and the kept rows come before the new ones |
| `Upsert.UpsertRowCount` | terminal.py:32-42 | the new table has \|df\| minus the user's old rows plus \|ratings\| rows |
| `Upsert.NewUserOnlyAppends` | terminal.py:26-42 | with no id, the old table is left whole and the new rows are appended after it |
| `Upsert.UpsertIdempotent` | terminal.py:31-42 | repeating an upsert with the same explicit id and ratings gives the same table and id |
| `Recommend.FirstIndex` | terminal.py:59 | the position found holds the value and no earlier position does |
| `Recommend.Distinct` | terminal.py:59 | `unique()` holds the same values as its input, each once |
| `Recommend.DistinctInFirstOccurrenceOrder` | terminal.py:59 | `unique()` lists the values in the order of their first occurrence in the column |
| `Recommend.Unrated` | terminal.py:63-64 | a movie is kept exactly when it is in the list and not among the rated ones |
| `Recommend.Candidates` | terminal.py:59-64 | a movie is a candidate exactly when it occurs in the original table and is not a key of the user's ratings |
| `Recommend.UnratedOrder` | terminal.py:62-64 | skipping the rated movies keeps the others in the order of their first occurrence in the table |
| `Recommend.CandidatesInOrder` | terminal.py:59-64 | the candidates are the unique movies of the table in the order in which each first occurs |
| `Recommend.InsertByScore` | terminal.py:69 | inserting adds exactly one entry; a new entry goes first only if it beats the current head |
| `Recommend.InsertKeepsSorted` | terminal.py:69 | inserting into a list sorted by descending score keeps it sorted |
| `Recommend.SortByScore` | terminal.py:69 | the sorted list is a permutation of the predictions, sorted by descending score |
| `Recommend.FirstBest` | terminal.py:69-70 | the index chosen has the highest score, and every earlier entry scores strictly less |
| `Recommend.SortedHeadIsFirstBest` | terminal.py:69-70 | the head of the stable sort is the first entry with the highest score |
| `Recommend.HeadOfSortedIsFirstBest` | terminal.py:69-70 | the movie at the head of the sorted predictions is a candidate and the first candidate with the highest score |
| `Recommend.FirstBestInOrder` | terminal.py:69-70 | in a list kept in table order, the first best entry scores at least as much as every entry and strictly more than every entry that occurs before it in the table |
| `Recommend.FirstBestInTableOrder` | terminal.py:59-70 | the first best candidate is an unrated movie of the table; it scores at least as much as every unrated movie and strictly more than every unrated movie that first occurs before it in the table |
| `Recommend.NoCandidatesIff` | terminal.py:59-70 | there is no candidate exactly when every movie of the original table was just rated |
| `Recommend.PredictUnrated` | terminal.py:62-66 | the predictions list holds every unrated movie with its predicted rating, in first-occurrence order |
| `Recommend.RecommendMovie` | terminal.py:48-70 | no movie (the `IndexError`) exactly when every movie of the table was just rated; otherwise the movie is in the original table, is not rated, and is the first candidate with the highest score under the model fitted on the upserted table, for the upserted user id; read against the table, every unrated movie scores at most as much, and every unrated movie that first occurs before it scores strictly less (ties go to the earliest movie) |

## Left out

- Training and prediction (`Reader`, `Dataset`, `SVD`, `algo.fit`, `algo.predict`, terminal.py:2, 53-56, 65) come from a foreign library that runs floating-point gradient descent. The fitted model is the parameter `fit`. No property of the scores is assumed, and the randomness of the factor initialisation is not modelled.
- Reading the table from a hard-coded file (terminal.py:75) is file I/O. The table is a parameter.
- The menu, the prompts and the input checks of `main` (terminal.py:82-129) are console interaction. The caller supplies `user_ratings` and `user_id` directly.
- `clean_rating` calls `str(rating)` on whatever the table holds. The model takes that text as its input. A number read by pandas arrives as its `str()` form; for example NaN is "nan", which cleans to `None`.
- `str.isdigit` and `str.lower` are modelled on ASCII only. Python also treats other Unicode digits (such as superscripts) as digits, and `float` or `int` may then raise. Python also lower-cases non-ASCII letters.
- Floats are modelled as exact `real`s. Rounding, overflow to `inf` on very long digit strings, and NaN ordering in the sort are not modelled. The mean of an all-missing column (NaN in pandas) is `None`, and filling with it changes nothing.
- `Imputation.FillMissing` models the fill on terminal.py:80 as changing the table. The call updates `df['Rating']`, which is taken by chained indexing. That changes `df` only while the column is a view of the table, as it is without pandas copy-on-write. Under copy-on-write the gaps stay NaN; that behaviour is not modelled.
- Pandas index handling (`ignore_index`) is left out. A table is a sequence of rows in order.
- The `User` column is a column of strings. If pandas read the column as integers, a new user fails at `uid.isdigit()` (terminal.py:28). For a returning user, the filter at terminal.py:32 compares integers with a string and removes nothing, so the old rows are kept beside the new ones. Neither case is modelled.
- `user_ratings` is the sequence of the dict's items in insertion order. Nothing requires its keys to be distinct, though a dict's keys always are.
- A word rating is the Python `int` 1..5 (`Word(n)`). In the cleaned column it becomes the same number as a `real`, as pandas stores it.

## Behaviour worth knowing

- Stripping keeps every digit. So "2.5/5" strips to "2.55" and reads as 2.55 (`Cleaning.ScaleDigitKeptExample`).
- The upsert stores the supplied ratings without checking them.
- Every unrated movie of the original table is scored, including one that has no training row left.
- An explicit id that is not in the table removes nothing. The ratings are added under that id.
- A remainder like "1.2.3" makes `float` raise. That aborts the whole preparation (`PrepareRatings` returns `None`).

=== FILE: cleaning.dfy ===
/**
 * The rating normaliser `clean_rating`: a number word "one".."five" in any
 * letter case becomes 1..5; anything else is stripped down to its digits and
 * dots, and what is left is read by Python's `float`, or gives `None` when
 * nothing is left.
 */
module Cleaning {
  import opened Common

  /** What `clean_rating` returns, or the ValueError that `float` raises. */
  datatype Cleaned =
    | Word(n: nat)          // a number word, returned as the int 1..5
    | Numeric(value: real)  // float(cleaned_rating)
    | NotARating            // None: no digit and no dot was left
    | ParseError            // float(cleaned_rating) raised ValueError

  /** `str.lower` on one character (ASCII letters only). */
  function LowerChar(c: char): (r: char)
    ensures 'A' <= c <= 'Z' ==> 'a' <= r <= 'z' && r as int - c as int == 'a' as int - 'A' as int
    ensures !('A' <= c <= 'Z') ==> r == c
  {
    if 'A' <= c <= 'Z' then (c as int - 'A' as int + 'a' as int) as char else c
  }

  function Lower(s: string): string {
    seq(|s|, i requires 0 <= i < |s| => LowerChar(s[i]))
  }

  /** Lower-casing keeps the length, leaves no capital letter and keeps every
      character that is not a capital letter. */
  lemma LowerCase(s: string)
    ensures |Lower(s)| == |s|
    ensures forall i :: 0 <= i < |s| ==> !('A' <= Lower(s)[i] <= 'Z')
    ensures forall i :: 0 <= i < |s| && !('A' <= s[i] <= 'Z') ==> Lower(s)[i] == s[i]
  {
  }

  /** The lookup table of the source's number words. */
  const NumberWords: map<string, nat> :=
    map["one" := 1, "two" := 2, "three" := 3, "four" := 4, "five" := 5]

  /** The characters the stripping step keeps: `c.isdigit() or c == '.'`. */
  predicate IsNumericChar(c: char) {
    IsDigit(c) || c == '.'
  }

  predicate AllNumeric(s: string) {
    forall i :: 0 <= i < |s| ==> IsNumericChar(s[i])
  }

  /** The stripping step: the subsequence of digits and dots, in order. */
  function KeepNumeric(s: string): (r: string)
    ensures AllNumeric(r)
    ensures |r| <= |s|
    ensures AllNumeric(s) ==> r == s
  {
    if s == [] then [] else (if IsNumericChar(s[0]) then [s[0]] else []) + KeepNumeric(s[1..])
  }

  /** Stripping works character by character, so it distributes over concatenation. */
  lemma {:induction false} KeepNumericAppend(a: string, b: string)
    ensures KeepNumeric(a + b) == KeepNumeric(a) + KeepNumeric(b)
  {
    if a == [] {
      assert a + b == b;
    } else {
      var ab := a + b;
      assert ab[0] == a[0];
      assert ab[1..] == a[1..] + b;
      KeepNumericAppend(a[1..], b);
      var head := if IsNumericChar(a[0]) then [a[0]] else [];
      assert KeepNumeric(ab) == head + KeepNumeric(a[1..] + b);
      assert KeepNumeric(a) == head + KeepNumeric(a[1..]);
    }
  }

  /** Nothing is left after stripping exactly when there was no digit and no dot. */
  lemma {:induction false} KeepNumericEmptyIff(s: string)
    ensures KeepNumeric(s) == [] <==> forall i :: 0 <= i < |s| ==> !IsNumericChar(s[i])
  {
    if s != [] {
      KeepNumericEmptyIff(s[1..]);
      assert forall i :: 1 <= i < |s| ==> s[i] == s[1..][i - 1];
    }
  }

  /** Lower-casing neither creates nor changes digits and dots. */
  lemma {:induction false} KeepNumericIgnoresCase(s: string)
    ensures KeepNumeric(Lower(s)) == KeepNumeric(s)
  {
    if s != [] {
      assert Lower(s)[1..] == Lower(s[1..]);
      KeepNumericIgnoresCase(s[1..]);
    }
  }

  /** The number of dots in `t`. */
  function DotCount(t: string): nat {
    if t == [] then 0 else (if t[0] == '.' then 1 else 0) + DotCount(t[1..])
  }

  /** The strings that `float` accepts among those made of digits and dots:
      at most one dot and at least one digit ("5", "5.", ".5", "2.55"). */
  predicate IsFloatLiteral(t: string) {
    DotCount(t) <= 1 && exists i :: 0 <= i < |t| && IsDigit(t[i])
  }

  /** Position of the first dot, or |t| when there is none. */
  function DotIndex(t: string): (k: nat)
    ensures k <= |t|
    ensures forall j :: 0 <= j < k ==> t[j] != '.'
    ensures k < |t| ==> t[k] == '.'
  {
    if t == [] || t[0] == '.' then 0 else 1 + DotIndex(t[1..])
  }

  /** Among digits and dots, a string without dots is all digits. */
  lemma {:induction false} NoDotsAllDigits(t: string)
    requires AllNumeric(t)
    ensures DotCount(t) == 0 <==> AllDigits(t)
  {
    if t != [] {
      NoDotsAllDigits(t[1..]);
      assert forall i :: 1 <= i < |t| ==> t[i] == t[1..][i - 1];
    }
  }

  /** The dots of `t` are the first one and those after it. */
  lemma {:induction false} DotCountAfterFirst(t: string)
    ensures DotIndex(t) == |t| ==> DotCount(t) == 0
    ensures DotIndex(t) < |t| ==> DotCount(t) == 1 + DotCount(t[DotIndex(t) + 1..])
  {
    if t != [] && t[0] != '.' {
      DotCountAfterFirst(t[1..]);
      if DotIndex(t) < |t| {
        assert t[1..][DotIndex(t[1..]) + 1..] == t[DotIndex(t) + 1..];
      }
    }
  }

  /** Where the first dot sits decides whether `float` accepts a string of digits and dots. */
  lemma FloatLiteralShape(t: string)
    requires AllNumeric(t)
    ensures var k := DotIndex(t);
      && (k == |t| ==> (IsFloatLiteral(t) <==> t != []))
      && (k < |t| ==> (IsFloatLiteral(t) <==> AllDigits(t[k + 1..]) && (k > 0 || k + 1 < |t|)))
  {
    var k := DotIndex(t);
    DotCountAfterFirst(t);
    if k == |t| {
      if t != [] {
        assert IsDigit(t[0]);
      }
    } else {
      var frac := t[k + 1..];
      assert AllNumeric(frac);
      NoDotsAllDigits(frac);
      if AllDigits(frac) {
        if k > 0 {
          assert IsDigit(t[0]);
        } else if k + 1 < |t| {
          assert IsDigit(frac[0]);
        } else {
          assert |t| == 1 && t[0] == '.';
        }
      }
    }
  }

  /** `float(t)` on a string of digits and dots: the whole part plus the
      fraction digits scaled down, or the ValueError. */
  function ParseFloat(t: string): (r: Cleaned)
    requires AllNumeric(t)
    ensures r.Numeric? || r.ParseError?
    ensures r.Numeric? <==> IsFloatLiteral(t)
    ensures r.Numeric? ==> r.value >= 0.0
  {
    FloatLiteralShape(t);
    var k := DotIndex(t);
    if k == |t| then
      if t == [] then ParseError else Numeric(DigitsValue(t) as real)
    else
      var whole, frac := t[..k], t[k + 1..];
      if !AllDigits(frac) || (whole == [] && frac == []) then ParseError
      else Numeric(DigitsValue(whole) as real + DigitsValue(frac) as real / Pow10(|frac|) as real)
  }

  /** `clean_rating(raw)` for a rating given as text (`str(rating)` of it). */
  function CleanRating(raw: string): (r: Cleaned)
    ensures r.Word? <==> Lower(raw) in NumberWords
    ensures r.Word? ==> r.n == NumberWords[Lower(raw)] && 1 <= r.n <= 5
    ensures r == NotARating <==>
              Lower(raw) !in NumberWords && forall i :: 0 <= i < |raw| ==> !IsNumericChar(raw[i])
    ensures r.ParseError? <==>
              Lower(raw) !in NumberWords && KeepNumeric(raw) != [] && !IsFloatLiteral(KeepNumeric(raw))
    ensures r.Numeric? ==> r == ParseFloat(KeepNumeric(raw)) && r.value >= 0.0
  {
    var lowered := Lower(raw);
    if lowered in NumberWords then
      Word(NumberWords[lowered])
    else
      KeepNumericIgnoresCase(raw);
      KeepNumericEmptyIff(raw);
      var cleaned := KeepNumeric(lowered);
      if cleaned == [] then NotARating else ParseFloat(cleaned)
  }

  /** `t` with its first dot (if any) taken out. */
  function WithoutDot(t: string): string {
    var k := DotIndex(t);
    if k == |t| then t else t[..k] + t[k + 1..]
  }

  /** The number of digits after the first dot. */
  function FracLength(t: string): nat {
    var k := DotIndex(t);
    if k == |t| then 0 else |t| - k - 1
  }

  /** Reference reading of a decimal literal: all its digits as one integer,
      divided by ten to the number of digits after the dot. */
  lemma FloatValueIsScaledDigits(t: string)
    requires AllNumeric(t) && IsFloatLiteral(t)
    ensures AllDigits(WithoutDot(t))
    ensures ParseFloat(t).value == DigitsValue(WithoutDot(t)) as real / Pow10(FracLength(t)) as real
  {
    FloatLiteralShape(t);
    DotCountAfterFirst(t);
    var k := DotIndex(t);
    if k == |t| {
      NoDotsAllDigits(t);
      assert ParseFloat(t) == Numeric(DigitsValue(t) as real);
      assert WithoutDot(t) == t;
      assert Pow10(FracLength(t)) as real == 1.0;
      assert ParseFloat(t).value == DigitsValue(WithoutDot(t)) as real / 1.0;
    } else {
      var whole, frac := t[..k], t[k + 1..];
      assert AllDigits(whole);
      assert AllDigits(frac);
      assert ParseFloat(t) == Numeric(DigitsValue(whole) as real + DigitsValue(frac) as real / Pow10(|frac|) as real);
      DigitsValueAppend(whole, frac);
      assert WithoutDot(t) == whole + frac;
      ScaleBack(DigitsValue(whole), DigitsValue(frac), Pow10(|frac|));
      assert FracLength(t) == |frac|;
      assert DigitsValue(WithoutDot(t)) == DigitsValue(whole) * Pow10(|frac|) + DigitsValue(frac);
    }
  }

  lemma ScaleBack(w: nat, f: nat, p: nat)
    requires p > 0
    ensures (w * p + f) as real / p as real == w as real + f as real / p as real
  {
  }

  /** A character other than a digit or a dot, inserted anywhere into a rating
      that is not a number word, changes nothing ("4 stars" reads as "4"). */
  lemma StrayCharacterIgnored(a: string, c: char, b: string)
    requires !IsNumericChar(c)
    requires Lower(a + [c] + b) !in NumberWords && Lower(a + b) !in NumberWords
    ensures CleanRating(a + [c] + b) == CleanRating(a + b)
  {
    KeepNumericAppend(a + [c], b);
    KeepNumericAppend(a, [c]);
    KeepNumericAppend(a, b);
    assert KeepNumeric([c]) == [];
    assert KeepNumeric(a + [c]) == KeepNumeric(a);
    OnlyDigitsAndDotsMatter(a + [c] + b, a + b);
  }

  /** Outside the number words, the result depends on nothing but the digits
      and dots of the input, in their order. */
  lemma OnlyDigitsAndDotsMatter(s: string, t: string)
    requires Lower(s) !in NumberWords && Lower(t) !in NumberWords
    requires KeepNumeric(s) == KeepNumeric(t)
    ensures CleanRating(s) == CleanRating(t)
  {
    KeepNumericIgnoresCase(s);
    KeepNumericIgnoresCase(t);
  }

  /** Number words are recognised in any letter case. */
  lemma WordExamples()
    ensures CleanRating("three") == Word(3)
    ensures CleanRating("THREE") == Word(3)
    ensures CleanRating("Five") == Word(5)
  {
    assert Lower("three") == "three";
    assert Lower("THREE") == "three";
    assert Lower("Five") == "five";
  }

  /** Text around the number is stripped. */
  lemma StrippedExample()
    ensures CleanRating("4 stars") == Numeric(4.0)
  {
    assert Lower("4 stars") == "4 stars";
    assert KeepNumeric("4 stars") == "4";
    assert ParseFloat("4") == Numeric(4.0) by {
      assert DotIndex("4") == 1;
      assert DigitsValue("4") == 4;
    }
  }

  /** "2.5/5" keeps the digit of the scale too and reads as 2.55, not 2.5. */
  lemma ScaleDigitKeptExample()
    ensures CleanRating("2.5/5") == Numeric(2.55)
  {
    assert Lower("2.5/5") == "2.5/5" by {
      assert forall i :: 0 <= i < 5 ==> LowerChar("2.5/5"[i]) == "2.5/5"[i];
    }
    StripScale();
    TwoPointFiftyFive();
  }

  lemma StripScale()
    ensures KeepNumeric("2.5/5") == "2.55"
  {
  }

  lemma TwoPointFiftyFive()
    ensures ParseFloat("2.55") == Numeric(2.55)
  {
  }

  /** No digit and no dot: `None`. */
  lemma NotARatingExamples()
    ensures CleanRating("") == NotARating
    ensures CleanRating("abc") == NotARating
  {
  }

  /** More than one dot, or a dot alone, makes `float` raise. */
  lemma ParseErrorExamples()
    ensures CleanRating("1.2.3") == ParseError
    ensures CleanRating(".") == ParseError
  {
    assert Lower("1.2.3") == "1.2.3";
    assert DotCount("1.2.3") == 2;
  }
}

=== FILE: common.dfy ===
/**
 * Shared vocabulary: an Option type, and Python's view of decimal digit
 * strings (`str.isdigit`, `int(s)` on such a string, and `str(n)` on a
 * natural number), restricted to the ASCII digits '0'..'9'.
 */
module Common {

  datatype Option<T> = None | Some(value: T)

  /** `c.isdigit()` for an ASCII character. */
  predicate IsDigit(c: char) {
    '0' <= c <= '9'
  }

  predicate AllDigits(s: string) {
    forall i :: 0 <= i < |s| ==> IsDigit(s[i])
  }

  /** `s.isdigit()` on a whole string: true only for a non-empty run of digits. */
  predicate IsDigitString(s: string) {
    |s| > 0 && AllDigits(s)
  }

  function DigitValue(c: char): nat
    requires IsDigit(c)
  {
    c as int - '0' as int
  }

  function DigitChar(d: nat): (c: char)
    requires d < 10
    ensures IsDigit(c) && DigitValue(c) == d
  {
    ('0' as int + d) as char
  }

  /** The value of a run of decimal digits, as `int(s)` reads it (0 for the empty run). */
  function DigitsValue(s: string): (v: nat)
    requires AllDigits(s)
    ensures v < Pow10(|s|)
  {
    if s == [] then 0 else 10 * DigitsValue(s[..|s| - 1]) + DigitValue(s[|s| - 1])
  }

  function Pow10(k: nat): (p: nat)
    ensures p >= 1
  {
    if k == 0 then 1 else 10 * Pow10(k - 1)
  }

  /** `str(n)` for a natural number: its decimal digits, without leading zeros. */
  function NatToString(n: nat): (s: string)
    ensures IsDigitString(s)
    ensures |s| > 1 ==> s[0] != '0'
  {
    if n < 10 then [DigitChar(n)] else NatToString(n / 10) + [DigitChar(n % 10)]
  }

  /** `int(str(n)) == n`. */
  lemma {:induction false} NatToStringRoundTrip(n: nat)
    ensures DigitsValue(NatToString(n)) == n
  {
    if n >= 10 {
      var s := NatToString(n);
      assert s[..|s| - 1] == NatToString(n / 10);
      NatToStringRoundTrip(n / 10);
    }
  }

  /** Reading digits left to right: the digits of `a` are worth `10^|b|` times more. */
  lemma {:induction false} DigitsValueAppend(a: string, b: string)
    requires AllDigits(a) && AllDigits(b)
    ensures AllDigits(a + b)
    ensures DigitsValue(a + b) == DigitsValue(a) * Pow10(|b|) + DigitsValue(b)
  {
    assert forall i :: 0 <= i < |a + b| ==> (a + b)[i] == if i < |a| then a[i] else b[i - |a|];
    if b != [] {
      var b' := b[..|b| - 1];
      var ab := a + b;
      assert ab[..|ab| - 1] == a + b';
      assert ab[|ab| - 1] == b[|b| - 1];
      DigitsValueAppend(a, b');
      var va, vb', d, p' := DigitsValue(a), DigitsValue(b'), DigitValue(b[|b| - 1]), Pow10(|b'|);
      assert DigitsValue(ab) == 10 * DigitsValue(a + b') + d;
      assert DigitsValue(b) == 10 * vb' + d;
      assert Pow10(|b|) == 10 * p';
      ShiftDigit(va, vb', d, p');
    } else {
      assert a + b == a;
    }
  }

  lemma ShiftDigit(va: int, vb: int, d: int, p: int)
    ensures 10 * (va * p + vb) + d == va * (10 * p) + (10 * vb + d)
  {
  }
}

=== FILE: imputation.dfy ===
/**
 * Corpus preparation: every raw rating of the table is cleaned, the mean of
 * the ratings that came out as numbers is taken once, and every missing
 * rating is then overwritten in place by that mean, so that no row is lost.
 */
module Imputation {
  import opened Common
  import opened Cleaning

  /** What the cleaned column holds for one row: a number, or `None` (NaN). */
  function AsValue(c: Cleaned): (v: Option<real>)
    requires !c.ParseError?
    ensures v.None? <==> c.NotARating?
  {
    match c
    case Word(n) => Some(n as real)
    case Numeric(x) => Some(x)
    case NotARating => None
  }

  /** `df['Rating'].apply(clean_rating)`: the cleaned column, or `None` when
      some row makes `float` raise (the whole preparation then fails). */
  function CleanColumn(raw: seq<string>): (col: Option<seq<Option<real>>>)
    ensures col.None? <==> exists i :: 0 <= i < |raw| && CleanRating(raw[i]).ParseError?
    ensures col.Some? ==> |col.value| == |raw|
    ensures col.Some? ==> forall i :: 0 <= i < |raw| ==> col.value[i] == AsValue(CleanRating(raw[i]))
  {
    if raw == [] then
      Some([])
    else
      var c := CleanRating(raw[0]);
      if c.ParseError? then
        None
      else
        match CleanColumn(raw[1..])
        case None =>
          assert forall i :: 1 <= i < |raw| ==> raw[1..][i - 1] == raw[i];
          None
        case Some(rest) =>
          assert forall i :: 1 <= i < |raw| ==> raw[1..][i - 1] == raw[i];
          Some([AsValue(c)] + rest)
  }

  /** The number of present (non-missing) ratings. */
  function Count(col: seq<Option<real>>): nat {
    if col == [] then 0 else (if col[0].Some? then 1 else 0) + Count(col[1..])
  }

  /** The sum of the present ratings. */
  function Sum(col: seq<Option<real>>): real {
    if col == [] then 0.0 else (if col[0].Some? then col[0].value else 0.0) + Sum(col[1..])
  }

  lemma {:induction false} CountZeroIff(col: seq<Option<real>>)
    ensures Count(col) == 0 <==> forall i :: 0 <= i < |col| ==> col[i].None?
    ensures Count(col) <= |col|
  {
    if col != [] {
      CountZeroIff(col[1..]);
      assert forall i :: 1 <= i < |col| ==> col[1..][i - 1] == col[i];
    }
  }

  /** `Series.mean()`, which skips missing values: `None` (NaN) when nothing is present. */
  function Mean(col: seq<Option<real>>): (m: Option<real>)
    ensures m.None? <==> forall i :: 0 <= i < |col| ==> col[i].None?
  {
    CountZeroIff(col);
    if Count(col) == 0 then None else Some(Sum(col) / Count(col) as real)
  }

  /** The sum of present ratings lies between their count times a lower and an upper bound. */
  lemma {:induction false} SumBounds(col: seq<Option<real>>, lo: real, hi: real)
    requires forall i :: 0 <= i < |col| && col[i].Some? ==> lo <= col[i].value <= hi
    ensures Count(col) as real * lo <= Sum(col) <= Count(col) as real * hi
  {
    if col != [] {
      var tail := col[1..];
      assert forall i :: 0 <= i < |tail| ==> tail[i] == col[i + 1];
      SumBounds(tail, lo, hi);
      var c := Count(tail) as real;
      if col[0].Some? {
        assert Count(col) as real == c + 1.0;
        assert (c + 1.0) * lo == c * lo + lo;
        assert (c + 1.0) * hi == c * hi + hi;
      } else {
        assert Count(col) as real == c;
      }
    }
  }

  /** The mean lies within any bounds that all present ratings respect: ratings
      on the scale 1..5 have a mean on that scale. */
  lemma MeanWithinBounds(col: seq<Option<real>>, lo: real, hi: real)
    requires forall i :: 0 <= i < |col| && col[i].Some? ==> lo <= col[i].value <= hi
    requires exists i :: 0 <= i < |col| && col[i].Some?
    ensures Mean(col).Some? && lo <= Mean(col).value <= hi
  {
    SumBounds(col, lo, hi);
    CountZeroIff(col);
    var c := Count(col) as real;
    assert c > 0.0;
    DivideBounds(Sum(col), c, lo, hi);
  }

  lemma DivideBounds(s: real, c: real, lo: real, hi: real)
    requires c > 0.0 && c * lo <= s <= c * hi
    ensures lo <= s / c <= hi
  {
  }

  /** `fillna(m)`: every missing rating becomes `m`; a present one is kept. */
  function Filled(col: seq<Option<real>>, m: Option<real>): (r: seq<Option<real>>)
    ensures |r| == |col|
  {
    seq(|col|, i requires 0 <= i < |col| => if col[i].None? then m else col[i])
  }

  /** After filling, every present rating is kept and every gap holds `m`;
      with a present `m`, no gap is left. */
  lemma FilledKeepsPresent(col: seq<Option<real>>, m: Option<real>)
    ensures forall i :: 0 <= i < |col| && col[i].Some? ==> Filled(col, m)[i] == col[i]
    ensures forall i :: 0 <= i < |col| && col[i].None? ==> Filled(col, m)[i] == m
    ensures m.Some? ==> forall i :: 0 <= i < |col| ==> Filled(col, m)[i].Some?
  {
  }

  /** `df['Rating'].fillna(m, inplace=True)`: the column is overwritten row by row. */
  method FillMissing(col: array<Option<real>>, m: Option<real>)
    modifies col
    ensures col[..] == Filled(old(col[..]), m)
  {
    var i := 0;
    while i < col.Length
      invariant 0 <= i <= col.Length
      invariant forall j :: 0 <= j < i ==> col[j] == Filled(old(col[..]), m)[j]
      invariant forall j :: i <= j < col.Length ==> col[j] == old(col[j])
    {
      if col[i].None? {
        col[i] := m;
      }
      i := i + 1;
    }
  }

  /** Lines 77-80 of the program: clean, take the mean once, fill the gaps with it.
      The row count is kept; a row that was cleaned to a number keeps it; a row
      that was cleaned to `None` gets the mean of the cleaned column; and as
      soon as one row is a number, no row is left missing. */
  method PrepareRatings(raw: seq<string>) returns (ratings: Option<seq<Option<real>>>)
    ensures ratings.None? <==> exists i :: 0 <= i < |raw| && CleanRating(raw[i]).ParseError?
    ensures ratings.Some? ==> |ratings.value| == |raw|
    ensures ratings.Some? ==> forall i :: 0 <= i < |raw| ==>
              var c := CleanRating(raw[i]);
              && (c.NotARating? ==> ratings.value[i] == Mean(CleanColumn(raw).value))
              && (!c.NotARating? ==> ratings.value[i] == AsValue(c))
    ensures ratings.Some? && (exists i :: 0 <= i < |raw| && !CleanRating(raw[i]).NotARating?) ==>
              forall i :: 0 <= i < |raw| ==> ratings.value[i].Some?
  {
    var cleaned := CleanColumn(raw);
    if cleaned.None? {
      return None;
    }
    var col := cleaned.value;
    var mean := Mean(col);
    var column := new Option<real>[|col|](i requires 0 <= i < |col| => col[i]);
    assert column[..] == col;
    FillMissing(column, mean);
    ratings := Some(column[..]);
  }

  lemma {:induction false} FilledCountSum(col: seq<Option<real>>, m: real)
    ensures Count(Filled(col, Some(m))) == |col|
    ensures Sum(Filled(col, Some(m))) == Sum(col) + (|col| - Count(col)) as real * m
  {
    CountZeroIff(col);
    if col != [] {
      assert Filled(col, Some(m))[1..] == Filled(col[1..], Some(m));
      FilledCountSum(col[1..], m);
      CountZeroIff(col[1..]);
    }
  }

  /** Filling the gaps with the mean does not move the mean: the mean is
      taken before imputation, and imputed values do not pollute it. */
  lemma ImputationKeepsMean(col: seq<Option<real>>)
    requires Mean(col).Some?
    ensures Mean(Filled(col, Mean(col))) == Mean(col)
  {
    var m := Mean(col).value;
    var filled := Filled(col, Some(m));
    FilledCountSum(col, m);
    CountZeroIff(col);
    var s, c, n := Sum(col), Count(col), |col|;
    assert c > 0;
    assert m == s / c as real;
    assert Count(filled) == n;
    var padded := s + (n - c) as real * (s / c as real);
    assert Sum(filled) == padded;
    assert Mean(filled) == Some(padded / n as real);
    MeanOfPadded(s, c, n);
  }

  lemma MeanOfPadded(s: real, c: nat, n: nat)
    requires 0 < c <= n
    ensures (s + (n - c) as real * (s / c as real)) / n as real == s / c as real
  {
  }
}

=== FILE: recommend.dfy ===
/**
 * `recommend_movie`: upsert the user's ratings, fit the model on the new
 * table, score every distinct movie of the ORIGINAL table that the user did
 * not just rate, sort the scores from high to low with a stable sort and
 * return the first movie. Fitting and predicting belong to a library and
 * are a parameter here: `fit` maps a table to the model's prediction function.
 */
module Recommend {
  import opened Common
  import opened Upsert

  /** A fitted model's `predict(user, movie).est`. */
  type Model = (string, string) -> real

  /** One entry of the `predictions` list: a movie and its predicted rating. */
  type Prediction = (string, real)

  /** The `Movie` column. */
  function Movies(df: seq<Row>): seq<string> {
    seq(|df|, i requires 0 <= i < |df| => df[i].movie)
  }

  /** Position of the first occurrence of `x` in `s`. */
  function FirstIndex(s: seq<string>, x: string): (k: nat)
    requires x in s
    ensures k < |s| && s[k] == x
    ensures forall j :: 0 <= j < k ==> s[j] != x
  {
    if s[0] == x then 0 else 1 + FirstIndex(s[1..], x)
  }

  /** Appending to a sequence does not move the first occurrence of a value already in it. */
  lemma FirstIndexOfPrefix(s: seq<string>, x: string)
    requires |s| > 0 && x in s[..|s| - 1]
    ensures FirstIndex(s, x) == FirstIndex(s[..|s| - 1], x)
  {
  }

  /** `Series.unique()`: every value once. */
  function Distinct(s: seq<string>): (r: seq<string>)
    ensures forall x :: x in r <==> x in s
    ensures forall i, j :: 0 <= i < j < |r| ==> r[i] != r[j]
  {
    if s == [] then
      []
    else
      var front, last := s[..|s| - 1], s[|s| - 1];
      assert s == front + [last];
      var d := Distinct(front);
      if last in d then d else d + [last]
  }

  /** `unique()` lists the values in the order of their first occurrence. */
  lemma {:induction false} DistinctInFirstOccurrenceOrder(s: seq<string>)
    ensures forall i, j :: 0 <= i < j < |Distinct(s)| ==>
              FirstIndex(s, Distinct(s)[i]) < FirstIndex(s, Distinct(s)[j])
  {
    if s != [] {
      var front, last := s[..|s| - 1], s[|s| - 1];
      var d := Distinct(front);
      DistinctInFirstOccurrenceOrder(front);
      forall x | x in front
        ensures FirstIndex(s, x) == FirstIndex(front, x)
      {
        FirstIndexOfPrefix(s, x);
      }
      if last !in d {
        assert FirstIndex(s, last) == |s| - 1;
        assert forall i :: 0 <= i < |d| ==> d[i] in front;
      }
    }
  }

  /** Every entry of `s` occurs in `ms`, and the entries of `s` are listed in
      the order of their first occurrence in `ms`. */
  ghost predicate InFirstOccurrenceOrder(s: seq<string>, ms: seq<string>) {
    (forall i :: 0 <= i < |s| ==> s[i] in ms)
    && forall i, j :: 0 <= i < j < |s| ==> FirstIndex(ms, s[i]) < FirstIndex(ms, s[j])
  }

  /** Appending a movie that first occurs after all of `s` keeps the order. */
  lemma AppendInOrder(s: seq<string>, x: string, ms: seq<string>)
    requires InFirstOccurrenceOrder(s, ms) && x in ms
    requires forall i :: 0 <= i < |s| ==> FirstIndex(ms, s[i]) < FirstIndex(ms, x)
    ensures InFirstOccurrenceOrder(s + [x], ms)
  {
  }

  /** Dropping the rated movies keeps the others in their order. */
  lemma {:induction false} UnratedOrder(s: seq<string>, ms: seq<string>, rated: set<string>)
    requires InFirstOccurrenceOrder(s, ms)
    ensures InFirstOccurrenceOrder(Unrated(s, rated), ms)
  {
    if s != [] {
      var front, last := s[..|s| - 1], s[|s| - 1];
      assert InFirstOccurrenceOrder(front, ms) by {
        assert forall i :: 0 <= i < |front| ==> front[i] == s[i];
      }
      UnratedOrder(front, ms, rated);
      var u := Unrated(front, rated);
      if last !in rated {
        forall i | 0 <= i < |u|
          ensures FirstIndex(ms, u[i]) < FirstIndex(ms, last)
        {
          assert u[i] in u;
          var k :| 0 <= k < |front| && front[k] == u[i];
          assert s[k] == u[i];
        }
        AppendInOrder(u, last, ms);
      }
    }
  }

  /** The movies the user just rated: the keys of `user_ratings`. */
  function RatedMovies(ratings: Ratings): set<string> {
    set i | 0 <= i < |ratings| :: ratings[i].0
  }

  /** The movies of `movies` that are not in `rated`, in their order. */
  function Unrated(movies: seq<string>, rated: set<string>): (r: seq<string>)
    ensures forall x :: x in r <==> x in movies && x !in rated
  {
    if movies == [] then
      []
    else
      var front, last := movies[..|movies| - 1], movies[|movies| - 1];
      assert movies == front + [last];
      Unrated(front, rated) + if last in rated then [] else [last]
  }

  /** The candidates: the distinct movies of the original table, in first-occurrence
      order, that are not keys of the user's ratings. */
  function Candidates(df: seq<Row>, ratings: Ratings): (r: seq<string>)
    ensures forall x :: x in r <==> x in Movies(df) && x !in RatedMovies(ratings)
  {
    Unrated(Distinct(Movies(df)), RatedMovies(ratings))
  }

  /** The predictions list for movies `ms`: each movie with its score for user `id`. */
  function Scored(ms: seq<string>, predict: Model, id: string): seq<Prediction> {
    seq(|ms|, i requires 0 <= i < |ms| => (ms[i], predict(id, ms[i])))
  }

  lemma UnratedStep(movies: seq<string>, i: nat, rated: set<string>)
    requires i < |movies|
    ensures Unrated(movies[..i + 1], rated) ==
              Unrated(movies[..i], rated) + if movies[i] in rated then [] else [movies[i]]
  {
    assert movies[..i + 1][..i] == movies[..i];
  }

  lemma ScoredAppend(a: seq<string>, b: seq<string>, predict: Model, id: string)
    ensures Scored(a + b, predict, id) == Scored(a, predict, id) + Scored(b, predict, id)
  {
  }

  /** Stable insertion into a list sorted by descending score: the new entry
      goes after every entry that scores at least as much. */
  function InsertByScore(sorted: seq<Prediction>, p: Prediction): (r: seq<Prediction>)
    ensures multiset(r) == multiset(sorted) + multiset{p}
    ensures |r| == |sorted| + 1
    ensures r[0] == if sorted != [] && p.1 <= sorted[0].1 then sorted[0] else p
  {
    if sorted == [] then
      [p]
    else if p.1 > sorted[0].1 then
      [p] + sorted
    else
      assert sorted == [sorted[0]] + sorted[1..];
      [sorted[0]] + InsertByScore(sorted[1..], p)
  }

  predicate SortedByScore(s: seq<Prediction>) {
    forall i, j :: 0 <= i < j < |s| ==> s[i].1 >= s[j].1
  }

  lemma {:induction false} InsertKeepsSorted(sorted: seq<Prediction>, p: Prediction)
    requires SortedByScore(sorted)
    ensures SortedByScore(InsertByScore(sorted, p))
  {
    if sorted != [] && p.1 <= sorted[0].1 {
      InsertKeepsSorted(sorted[1..], p);
    }
  }

  /** `predictions.sort(key=score, reverse=True)`: Python's sort is stable, and a
      stable sort has exactly one possible result, the one insertion sort gives. */
  function SortByScore(s: seq<Prediction>): (r: seq<Prediction>)
    ensures multiset(r) == multiset(s)
    ensures |r| == |s|
    ensures SortedByScore(r)
  {
    if s == [] then
      []
    else
      var front := s[..|s| - 1];
      assert s == front + [s[|s| - 1]];
      InsertKeepsSorted(SortByScore(front), s[|s| - 1]);
      InsertByScore(SortByScore(front), s[|s| - 1])
  }

  /** Index of the first entry with the highest score. */
  function FirstBest(s: seq<Prediction>): (k: nat)
    requires |s| > 0
    ensures k < |s|
    ensures forall j :: 0 <= j < |s| ==> s[j].1 <= s[k].1
    ensures forall j :: 0 <= j < k ==> s[j].1 < s[k].1
  {
    if |s| == 1 then
      0
    else
      var k := FirstBest(s[..|s| - 1]);
      if s[|s| - 1].1 > s[k].1 then |s| - 1 else k
  }

  /** The head of the stably sorted list is the first entry with the highest
      score: ties go to the entry that came first. */
  lemma {:induction false} SortedHeadIsFirstBest(s: seq<Prediction>)
    requires |s| > 0
    ensures SortByScore(s)[0] == s[FirstBest(s)]
  {
    if |s| > 1 {
      var front := s[..|s| - 1];
      SortedHeadIsFirstBest(front);
    }
  }

  /** `m` is the first candidate (in candidate order) with the highest score for user `id`. */
  ghost predicate IsFirstBest(cands: seq<string>, predict: Model, id: string, m: string) {
    exists k :: 0 <= k < |cands| && cands[k] == m
      && (forall j :: 0 <= j < |cands| ==> predict(id, cands[j]) <= predict(id, m))
      && (forall j :: 0 <= j < k ==> predict(id, cands[j]) < predict(id, m))
  }

  /** The candidates are listed in the order of their first occurrence in the table. */
  lemma CandidatesInOrder(df: seq<Row>, ratings: Ratings)
    ensures InFirstOccurrenceOrder(Candidates(df, ratings), Movies(df))
  {
    var ms := Movies(df);
    DistinctInFirstOccurrenceOrder(ms);
    UnratedOrder(Distinct(ms), ms, RatedMovies(ratings));
  }

  /** A first best entry of a list kept in first-occurrence order scores
      strictly more than every entry that occurs before it in the table. */
  lemma FirstBestInOrder(cands: seq<string>, ms: seq<string>, predict: Model, id: string, best: string)
    requires InFirstOccurrenceOrder(cands, ms) && IsFirstBest(cands, predict, id, best)
    ensures best in ms
    ensures forall m :: m in cands ==>
              && predict(id, m) <= predict(id, best)
              && (FirstIndex(ms, m) < FirstIndex(ms, best) ==> predict(id, m) < predict(id, best))
  {
  }

  /** The first best candidate, read against the table: it scores at least as
      much as every unrated movie of the table, and strictly more than every
      unrated movie that first occurs in the table before it. */
  lemma FirstBestInTableOrder(df: seq<Row>, ratings: Ratings, predict: Model, id: string, best: string)
    requires IsFirstBest(Candidates(df, ratings), predict, id, best)
    ensures best in Movies(df) && best !in RatedMovies(ratings)
    ensures forall m :: m in Movies(df) && m !in RatedMovies(ratings) ==>
              && predict(id, m) <= predict(id, best)
              && (FirstIndex(Movies(df), m) < FirstIndex(Movies(df), best) ==> predict(id, m) < predict(id, best))
  {
    var cands := Candidates(df, ratings);
    CandidatesInOrder(df, ratings);
    FirstBestInOrder(cands, Movies(df), predict, id, best);
    assert forall m :: m in Movies(df) && m !in RatedMovies(ratings) ==> m in cands;
    assert best in cands;
  }

  /** In a list kept in first-occurrence order, the entry that occurs first
      in the table also comes first in the list. */
  lemma EarlierInTableEarlierInList(s: seq<string>, ms: seq<string>, j: nat, k: nat)
    requires InFirstOccurrenceOrder(s, ms) && j < |s| && k < |s|
    requires FirstIndex(ms, s[j]) < FirstIndex(ms, s[k])
    ensures j < k
  {
  }

  /** There is nothing to recommend exactly when every movie of the table is
      among the movies the user just rated. */
  lemma NoCandidatesIff(df: seq<Row>, ratings: Ratings)
    ensures Candidates(df, ratings) == [] <==>
              forall i :: 0 <= i < |df| ==> df[i].movie in RatedMovies(ratings)
  {
    var cands := Candidates(df, ratings);
    if cands != [] {
      assert cands[0] in Movies(df);
    } else {
      forall i | 0 <= i < |df|
        ensures df[i].movie in RatedMovies(ratings)
      {
        assert df[i].movie == Movies(df)[i];
      }
    }
  }

  /** The movie at the head of the sorted predictions is a candidate, and the
      first candidate with the highest score. */
  lemma HeadOfSortedIsFirstBest(cands: seq<string>, predict: Model, id: string)
    requires cands != []
    ensures var head := SortByScore(Scored(cands, predict, id))[0].0;
      head in cands && IsFirstBest(cands, predict, id, head)
  {
    var unsorted := Scored(cands, predict, id);
    SortedHeadIsFirstBest(unsorted);
    var k := FirstBest(unsorted);
    var head := SortByScore(unsorted)[0].0;
    assert unsorted[k] == SortByScore(unsorted)[0];
    assert cands[k] == head;
    assert forall j :: 0 <= j < |cands| ==> predict(id, cands[j]) == unsorted[j].1;
    assert forall j :: 0 <= j < |cands| ==> predict(id, cands[j]) <= predict(id, head);
    assert forall j :: 0 <= j < k ==> predict(id, cands[j]) < predict(id, head);
  }

  /** The loop that builds `predictions`: every movie that is not rated, with
      its predicted rating, in the order of `movies`. */
  method PredictUnrated(movies: seq<string>, rated: set<string>, predict: Model, id: string)
    returns (predictions: seq<Prediction>)
    ensures predictions == Scored(Unrated(movies, rated), predict, id)
  {
    predictions := [];
    for i := 0 to |movies|
      invariant predictions == Scored(Unrated(movies[..i], rated), predict, id)
    {
      var m := movies[i];
      UnratedStep(movies, i, rated);
      if m !in rated {
        ScoredAppend(Unrated(movies[..i], rated), [m], predict, id);
        predictions := predictions + [(m, predict(id, m))];
      }
    }
    assert movies[..|movies|] == movies;
  }

  /** `recommend_movie(user_ratings, df, algo, user_id)`: `None` stands for the
      IndexError that `predictions[0]` raises when there is no candidate. */
  method RecommendMovie(ratings: Ratings, df: seq<Row>, fit: seq<Row> -> Model, userId: Option<string>)
    returns (movie: Option<string>)
    ensures movie.None? <==> forall i :: 0 <= i < |df| ==> df[i].movie in RatedMovies(ratings)
    ensures movie.Some? ==> movie.value in Movies(df) && movie.value !in RatedMovies(ratings)
    ensures movie.Some? ==>
              var upserted := UpsertUser(ratings, df, userId);
              IsFirstBest(Candidates(df, ratings), fit(upserted.0), upserted.1, movie.value)
    ensures movie.Some? ==>
              var upserted := UpsertUser(ratings, df, userId);
              var predict, id := fit(upserted.0), upserted.1;
              forall m :: m in Movies(df) && m !in RatedMovies(ratings) ==>
                && predict(id, m) <= predict(id, movie.value)
                && (FirstIndex(Movies(df), m) < FirstIndex(Movies(df), movie.value) ==>
                      predict(id, m) < predict(id, movie.value))
  {
    var upserted := UpsertUser(ratings, df, userId);
    var table, id := upserted.0, upserted.1;
    var predict := fit(table);
    var allMovies := Distinct(Movies(df));
    var predictions := PredictUnrated(allMovies, RatedMovies(ratings), predict, id);
    var cands := Candidates(df, ratings);
    NoCandidatesIff(df, ratings);
    predictions := SortByScore(predictions);
    if predictions == [] {
      return None;
    }
    HeadOfSortedIsFirstBest(cands, predict, id);
    FirstBestInTableOrder(df, ratings, predict, id, predictions[0].0);
    movie := Some(predictions[0].0);
  }
}

=== FILE: upsert.dfy ===
/**
 * `update_user_ratings`: put one user's ratings into the rating table. A
 * returning user's old rows are dropped first; a new user gets the next
 * numeric id. Either way the supplied ratings are appended and a new table
 * is returned together with the user's id; the table passed in is not changed.
 */
module Upsert {
  import opened Common

  /** One row of the rating table: the `User`, `Movie` and `Rating` columns. */
  datatype Row = Row(user: string, movie: string, rating: real)

  /** The ratings a user supplies: the items of a dict (movie to rating), in insertion order. */
  type Ratings = seq<(string, real)>

  /** The id of a new user: 1 + the largest `int(uid)` over the all-digit user
      ids of the table, or 1 when there is none. */
  function NextUserId(df: seq<Row>): (id: nat)
    ensures id >= 1
    ensures forall i :: 0 <= i < |df| && IsDigitString(df[i].user) ==> DigitsValue(df[i].user) < id
    ensures (exists i :: 0 <= i < |df| && IsDigitString(df[i].user)) ==>
              exists i :: 0 <= i < |df| && IsDigitString(df[i].user) && DigitsValue(df[i].user) + 1 == id
    ensures (forall i :: 0 <= i < |df| ==> !IsDigitString(df[i].user)) ==> id == 1
  {
    if df == [] then
      1
    else
      var front := df[..|df| - 1];
      var rest := NextUserId(front);
      assert forall i :: 0 <= i < |front| ==> front[i] == df[i];
      var u := df[|df| - 1].user;
      if IsDigitString(u) && DigitsValue(u) + 1 > rest then DigitsValue(u) + 1 else rest
  }

  /** `df[df['User'] != u]`: the rows of every other user, in their order. */
  function WithoutUser(df: seq<Row>, u: string): (r: seq<Row>)
    ensures forall i :: 0 <= i < |r| ==> r[i].user != u
    ensures |r| <= |df|
  {
    if df == [] then [] else (if df[0].user != u then [df[0]] else []) + WithoutUser(df[1..], u)
  }

  /** The rows of user `u`, in their order. */
  function RowsOf(df: seq<Row>, u: string): (r: seq<Row>)
    ensures forall i :: 0 <= i < |r| ==> r[i].user == u
  {
    if df == [] then [] else (if df[0].user == u then [df[0]] else []) + RowsOf(df[1..], u)
  }

  /** The frame built from the supplied ratings for user `u`. */
  function NewRows(u: string, ratings: Ratings): seq<Row> {
    seq(|ratings|, i requires 0 <= i < |ratings| => Row(u, ratings[i].0, ratings[i].1))
  }

  /** The new frame has one row per supplied rating, for user `u`, with the
      rating's movie and value, in dict order. */
  lemma NewRowsContent(u: string, ratings: Ratings)
    ensures |NewRows(u, ratings)| == |ratings|
    ensures forall i :: 0 <= i < |ratings| ==>
              NewRows(u, ratings)[i] == Row(u, ratings[i].0, ratings[i].1)
  {
  }

  /** `update_user_ratings(user_ratings, df, user_id)`: the new table and the user's id. */
  function UpsertUser(ratings: Ratings, df: seq<Row>, userId: Option<string>): (r: (seq<Row>, string))
    ensures userId.Some? ==> r.1 == userId.value
    ensures userId.None? ==> IsDigitString(r.1) && forall i :: 0 <= i < |df| ==> df[i].user != r.1
    ensures r.0 == WithoutUser(df, r.1) + NewRows(r.1, ratings)
  {
    match userId
    case None =>
      var id := NatToString(NextUserId(df));
      FreshIdUnused(df);
      WithoutAbsentUser(df, id);
      (df + NewRows(id, ratings), id)
    case Some(u) =>
      (WithoutUser(df, u) + NewRows(u, ratings), u)
  }

  /** The generated id is not the id of any row already in the table: not of
      an all-digit one (its value is larger), nor of any other (it is all digits). */
  lemma FreshIdUnused(df: seq<Row>)
    ensures forall i :: 0 <= i < |df| ==> df[i].user != NatToString(NextUserId(df))
  {
    var n := NextUserId(df);
    NatToStringRoundTrip(n);
    forall i | 0 <= i < |df|
      ensures df[i].user != NatToString(n)
    {
      if IsDigitString(df[i].user) {
        assert DigitsValue(df[i].user) < n;
      }
    }
  }

  /** Dropping a user who has no row changes nothing. */
  lemma {:induction false} WithoutAbsentUser(df: seq<Row>, u: string)
    requires forall i :: 0 <= i < |df| ==> df[i].user != u
    ensures WithoutUser(df, u) == df
  {
    if df != [] {
      WithoutAbsentUser(df[1..], u);
    }
  }

  lemma {:induction false} WithoutUserAppend(a: seq<Row>, b: seq<Row>, u: string)
    ensures WithoutUser(a + b, u) == WithoutUser(a, u) + WithoutUser(b, u)
  {
    if a == [] {
      assert a + b == b;
    } else {
      assert (a + b)[1..] == a[1..] + b;
      WithoutUserAppend(a[1..], b, u);
    }
  }

  lemma {:induction false} RowsOfAppend(a: seq<Row>, b: seq<Row>, u: string)
    ensures RowsOf(a + b, u) == RowsOf(a, u) + RowsOf(b, u)
  {
    if a == [] {
      assert a + b == b;
    } else {
      assert (a + b)[1..] == a[1..] + b;
      RowsOfAppend(a[1..], b, u);
    }
  }

  /** Every row is either the user's or not. */
  lemma {:induction false} SplitByUser(df: seq<Row>, u: string)
    ensures |WithoutUser(df, u)| + |RowsOf(df, u)| == |df|
  {
    if df != [] {
      SplitByUser(df[1..], u);
    }
  }

  /** Dropping `u` leaves `u` no rows and every other user all of theirs. */
  lemma {:induction false} RowsOfWithoutUser(df: seq<Row>, u: string, v: string)
    ensures RowsOf(WithoutUser(df, u), v) == if u == v then [] else RowsOf(df, v)
  {
    if df != [] {
      var head := if df[0].user != u then [df[0]] else [];
      RowsOfAppend(head, WithoutUser(df[1..], u), v);
      RowsOfWithoutUser(df[1..], u, v);
    }
  }

  /** The new frame holds rows of `u` only. */
  lemma {:induction false} RowsOfNewRows(u: string, ratings: Ratings, v: string)
    ensures RowsOf(NewRows(u, ratings), v) == if u == v then NewRows(u, ratings) else []
    ensures WithoutUser(NewRows(u, ratings), v) == if u == v then [] else NewRows(u, ratings)
  {
    if ratings != [] {
      assert NewRows(u, ratings)[1..] == NewRows(u, ratings[1..]);
      RowsOfNewRows(u, ratings[1..], v);
    }
  }

  /** After the upsert the user has exactly the supplied (movie, rating) pairs,
      in dict order, and none of their earlier rows survives. */
  lemma UpsertReplacesUserRows(ratings: Ratings, df: seq<Row>, userId: Option<string>)
    ensures var (table, id) := UpsertUser(ratings, df, userId);
      && RowsOf(table, id) == NewRows(id, ratings)
      && |RowsOf(table, id)| == |ratings|
      && forall i :: 0 <= i < |ratings| ==>
           RowsOf(table, id)[i].movie == ratings[i].0 && RowsOf(table, id)[i].rating == ratings[i].1
  {
    var (table, id) := UpsertUser(ratings, df, userId);
    RowsOfAppend(WithoutUser(df, id), NewRows(id, ratings), id);
    RowsOfWithoutUser(df, id, id);
    RowsOfNewRows(id, ratings, id);
  }

  /** Every other user keeps exactly their rows, in their order; the rows kept
      from the old table come first and the supplied ones after them. */
  lemma UpsertKeepsOtherUsers(ratings: Ratings, df: seq<Row>, userId: Option<string>, v: string)
    requires v != UpsertUser(ratings, df, userId).1
    ensures var (table, id) := UpsertUser(ratings, df, userId);
      && RowsOf(table, v) == RowsOf(df, v)
      && table[..|WithoutUser(df, id)|] == WithoutUser(df, id)
  {
    var (table, id) := UpsertUser(ratings, df, userId);
    RowsOfAppend(WithoutUser(df, id), NewRows(id, ratings), v);
    RowsOfWithoutUser(df, id, v);
    RowsOfNewRows(id, ratings, v);
  }

  /** The new table has |df| - (rows the user had) + |ratings| rows. */
  lemma UpsertRowCount(ratings: Ratings, df: seq<Row>, userId: Option<string>)
    ensures var (table, id) := UpsertUser(ratings, df, userId);
      |table| == |df| - |RowsOf(df, id)| + |ratings|
  {
    var (table, id) := UpsertUser(ratings, df, userId);
    SplitByUser(df, id);
  }

  /** A new user's rows are only appended: the old table is a prefix of the new one. */
  lemma NewUserOnlyAppends(ratings: Ratings, df: seq<Row>)
    ensures var (table, id) := UpsertUser(ratings, df, None);
      && table == df + NewRows(id, ratings)
      && RowsOf(df, id) == []
  {
    var (table, id) := UpsertUser(ratings, df, None);
    WithoutAbsentUser(df, id);
    SplitByUser(df, id);
  }

  /** Repeating the same upsert for a returning user gives the same table as doing it once. */
  lemma UpsertIdempotent(ratings: Ratings, df: seq<Row>, u: string)
    ensures var once := UpsertUser(ratings, df, Some(u));
      UpsertUser(ratings, once.0, Some(u)) == once
  {
    var once := WithoutUser(df, u) + NewRows(u, ratings);
    WithoutUserAppend(WithoutUser(df, u), NewRows(u, ratings), u);
    WithoutUserIdempotent(df, u);
    RowsOfNewRows(u, ratings, u);
    assert WithoutUser(once, u) == WithoutUser(df, u);
  }

  lemma {:induction false} WithoutUserIdempotent(df: seq<Row>, u: string)
    ensures WithoutUser(WithoutUser(df, u), u) == WithoutUser(df, u)
  {
    WithoutAbsentUser(WithoutUser(df, u), u);
  }
}
